=== FILE: README.md ===
# DSA signing core of dss.cpp, modelled in Dafny

`dss.cpp` implements the Digital Signature Algorithm of FIPS 186-4 on GMP/MPIR big integers. It has five parts:

- domain parameter generation: `generatePrimes`, `generateQ`, `getGenerator`, `generatePublicKey`;
- key generation: `generatePrivateKey`, `keyGeneration`;
- the big-endian byte/integer codec: `decodeText`, `encodeText`;
- signing: `signingAlgoritm`;
- verification: `signatureVerification`.

This project models those parts on mathematical integers and proves the properties the code and the standard promise about them.

Modules:

- `Wrappers` defines `Option`.
- `ModArith` covers the library arithmetic the code calls: `Pow`, `PowMod` (mpz_powm), `Gcd` (mpz_gcd), and `ExtGcd`/`Inverse` (mpz_invert, which returns `None` when no inverse exists). It also holds the modular-arithmetic lemmas, among them the reduction of exponents modulo the order of `g`.
- `Codec` holds `decodeText` (`Decode`) and `encodeText` (`Encode`) over bytes, with round trips both ways, minimality and the positional reading.
- `Dsa` holds the 160-byte hash buffer, signing as the code writes it and as section 4.6 of FIPS 186-4 states it, and verification with its intermediate values. Verification returns a `Verdict` instead of printing. It also holds the verification equation: with `g^q ≡ 1 (mod p)` and `y = g^x mod p`, the `v` that verification computes is `(g^k mod p) mod q`.
- `KeyGen` models the three retry loops as methods over finite sequences of abstract random draws. It also derives `g` from `h`, `x` from a draw, and `y = g^x mod p`.

SHA-1 is a parameter `sha1: seq<Byte> -> Digest`: any function from messages to 20-byte digests. The code copies the digest into a zeroed 160-byte buffer and decodes the whole buffer. So the hash integer is the digest value times 256^140, and signing and verification derive it identically (`HashValue`).

Where the code and FIPS 186-4 disagree, the model follows the code. It also states the corrected behaviour next to the as-written one (see Findings):

- appendix B.1 of FIPS 186-4 asks for `x` in [1, q−1]; `generatePrivateKey` draws `x` in [0, q), so `x = 0` is possible;
- appendix A.1.1.2 of FIPS 186-4 builds `p` from `q`; the code draws a prime `p` first and then searches for `q`, and never tests `q` for primality (the model does not assume `q` prime);
- appendix A.2.1 of FIPS 186-4 retries when `g = 1`, and section 4.6 retries when `r = 0` or `s = 0`; the code does none of these.

Line 116 of `dss.cpp` divides by an undeclared `q`. It is modelled as `pubkey->q`, the only value in scope that can be meant.

## Model

| member | source | states |
|---|---|---|
| ModArith.Gcd | dss.cpp:74 | mpz_gcd: zero only for gcd(0, 0), and at most b when b > 0 |
| ModArith.PowMod | dss.cpp:200-201 | mpz_powm: b^e reduced modulo m lies in [0, m) |
| ModArith.ExtGcd | dss.cpp:174 | extended Euclid returns gcd(a, b) with Bezout coefficients: a·x + b·y = gcd |
| ModArith.Inverse | dss.cpp:174 | mpz_invert succeeds iff gcd(a, m) = 1, and then returns w in [0, m) with a·w ≡ 1 (mod m) |
| ModArith.InverseComplete | dss.cpp:184 | the inversion fails only when no inverse exists: any w with a·w ≡ 1 (mod m), m > 1, makes it succeed |
| ModArith.InverseUnique | dss.cpp:184-185 | two inverses of a modulo m in [0, m) are equal |
| ModArith.GcdDivides | dss.cpp:74 | mpz_gcd of arguments not both zero is positive and divides both |
| ModArith.ExponentModOrder | dss.cpp:200-204 | if g^q ≡ 1 (mod p) then g^e ≡ g^(e mod q) (mod p) |
| Codec.Decode | dss.cpp:145-148 | decodeText: the last byte is the value's least significant base-256 digit |
| Codec.Encode | dss.cpp:150-154 | encodeText: a non-zero n gives a non-empty string whose last byte is n mod 256 |
| Codec.DecodeIsPositional | dss.cpp:145-148 | decodeText's value is Σ b[i]·256^(len−1−i), big-endian |
| Codec.DecodeBound | dss.cpp:145-148 | a value decoded from n bytes is below 256^n |
| Codec.DecodeAppend | dss.cpp:145-148 | decoding hi ++ lo gives Decode(hi)·256^|lo| + Decode(lo) |
| Codec.LeadingZerosIgnored | dss.cpp:145-148 | leading zero bytes do not change the decoded value |
| Codec.TrailingZerosShift | dss.cpp:145-148 | n trailing zero bytes multiply the value by 256^n |
| Codec.DecodeEncode | dss.cpp:145-154 | decodeText(encodeText(n)) = n for every n |
| Codec.EncodeDecode | dss.cpp:145-154 | encodeText(decodeText(bs)) = bs for every bs without a leading zero |
| Codec.EncodeMinimal | dss.cpp:150-154 | encodeText writes nothing for 0 and never a leading zero byte |
| Codec.EncodeLength | dss.cpp:150-154 | encodeText's length is the least byte count that holds n |
| Dsa.HashBuffer | dss.cpp:161-166 | the hash buffer is 160 bytes: the 20-byte digest, then zeros |
| Dsa.HashValue | dss.cpp:161-168 | the hash integer is Decode(digest)·256^140 and below 256^160; verification computes it identically at dss.cpp:187-192 |
| Dsa.SignatureS | dss.cpp:171-177 | s exists iff gcd(k, q) = 1; then 0 ≤ s < q and s·k ≡ h + x·r (mod q) |
| Dsa.SignatureSUnique | dss.cpp:171-177 | that s is the only solution in [0, q) of s·k ≡ h + x·r (mod q) |
| Dsa.SignAsWritten | dss.cpp:156-178 | signing as written: fails iff k is not invertible mod q; r = g^k mod q; 0 ≤ r, s < q; s·k ≡ h + x·r (mod q) |
| Dsa.Sign | dss.cpp:165 | signing as section 4.6 specifies it: r = (g^k mod p) mod q, with the same properties of s |
| Dsa.VerificationTrace | dss.cpp:184-204 | for signed r and s: w exists iff gcd(s mod q, q) = 1; then w·s ≡ 1 (mod q), w < q, u1 = h·w mod q, u2 = r·w mod q (both in [0, q)), v < q |
| Dsa.Verify | dss.cpp:180-220 | NoInverse iff gcd(s mod q, q) ≠ 1; Verified iff v = r; only an r in [0, q) can be verified |
| Dsa.VerifyChecked | dss.cpp:184-206 | with the section 4.7 range checks: r or s outside (0, q) is rejected, otherwise the verdict of Verify |
| Dsa.ExponentRecoversNonce | dss.cpp:195-198 | if w·s ≡ 1 and s·k ≡ h + x·r (mod q) then u1 + x·u2 ≡ k (mod q) |
| Dsa.CombinePowers | dss.cpp:200-203 | with y = g^x mod p, (g^u1 mod p)·(y^u2 mod p) mod p = g^(u1 + x·u2) mod p |
| Dsa.VerifierRecoversCommitment | dss.cpp:195-204 | with g^q ≡ 1 (mod p), y = g^x mod p, s invertible and s·k ≡ h + x·r (mod q), verification's v equals (g^k mod p) mod q |
| Dsa.VerifyDecidedByCommitment | dss.cpp:195-206 | under the same hypotheses, verification accepts exactly when r equals (g^k mod p) mod q |
| Dsa.SignVerifyAsWritten | dss.cpp:165-206 | the code's own sign→verify round trip succeeds iff g^k mod q = (g^k mod p) mod q |
| Dsa.SignVerify | dss.cpp:156-206 | a section 4.6 signature with s invertible is verified, and so is it by the range-checked verifier when r, s ≠ 0 |
| Dsa.VerifyIgnoresSRange | dss.cpp:184-185 | (r, s + n·q) receives the same verdict as (r, s) for every integer n, negative ones included |
| Dsa.NegativeRRejected | dss.cpp:204-206 | a negative r is never verified, since v is reduced into [0, q) |
| Dsa.NonceRevealsKey | dss.cpp:171-177 | a signature's s, its nonce k and the hash reveal the private key: x = (s·k − h)·r⁻¹ mod q |
| Dsa.NonceReuse | dss.cpp:165-177 | two messages signed with the same k under the same key get the same r (as written and per section 4.6), and the first signature with k yields x |
| Dsa.AsWrittenRoundTripFails | dss.cpp:165 | p = 23, q = 11, g = 4, x = 1, k = 3, message [] with an all-zero digest: the code signs (9, 3) and its verifier rejects it |
| Dsa.FipsRoundTripSmallKey | dss.cpp:165 | the same inputs signed per section 4.6 give (7, 6), which the range-checked verifier accepts |
| Dsa.ShiftedSAcceptedSmallKey | dss.cpp:184-206 | (7, 17) and (7, −5) are verified by the code's verifier and rejected by the range-checked one |
| Dsa.TamperedMessageRejected | dss.cpp:187-206 | under the small key, (7, 6), which signs [], is rejected for the message [1], whose digest ends in 1 |
| Dsa.SmallKeyRejectsHashOne | dss.cpp:195-206 | under the small key, (7, 6) is rejected for every message whose hash is 1 modulo 11 |
| KeyGen.GeneratorAccepted | dss.cpp:75 | getGenerator's exit test gcd(h, q) = 1; for q > 1 it never accepts h = 0 |
| KeyGen.QExit | dss.cpp:92-93 | generateQ's exit test: it holds iff "q divides p − 1 exactly" matches the chosen polarity |
| KeyGen.GeneratePrimes | dss.cpp:46-61 | returns the first draw the primality oracle accepts, or Exhausted if none does |
| KeyGen.GetGenerator | dss.cpp:64-77 | returns the first draw h mod q with gcd(h, q) = 1; h < q; h ≠ 0 when q > 1 |
| KeyGen.SearchQ | dss.cpp:86-93 | returns the first non-zero draw that meets the exit test; a zero draw before it is a division by zero |
| KeyGen.GenerateQAsWritten | dss.cpp:80-95 | p is replaced by p − 1; the q returned is the first draw that does NOT divide p − 1; a division by zero is reported at the first zero draw, every earlier draw being non-zero and dividing p − 1 |
| KeyGen.GenerateQ | dss.cpp:79-95 | as the comment intends: p is untouched; the q returned is the first draw dividing p − 1; a division by zero is reported at the first zero draw, every earlier draw being non-zero and not dividing p − 1 |
| KeyGen.GenerateQSmallExample | dss.cpp:93 | for p = 23 and draws 11, 5: as written the result is 5 after two draws, as intended it is 11 after one |
| KeyGen.DeriveGenerator | dss.cpp:115-117 | g = h^((p−1)/q) mod p lies in [0, p) |
| KeyGen.DeriveGeneratorOrder | dss.cpp:115-117 | if q divides p − 1 then g^q ≡ h^(p−1) (mod p) |
| KeyGen.GeneratePublicKeyAsWritten | dss.cpp:99-118 | as written: the published p is one less than the prime found, q does not divide it, g is derived from that p, p + 1, q and h come from their draws, and y is still 0 |
| KeyGen.PublishedModulusComposite | dss.cpp:85 | for any prime above 3, the modulus published as written is even, hence composite |
| KeyGen.GeneratePublicKey | dss.cpp:99-118 | as intended: p is the prime found, q > 0 divides p − 1, p, q and h come from their draws, h < q is coprime to q, g = h^((p−1)/q) mod p < p, g^q ≡ h^(p−1) (mod p) |
| KeyGen.GeneratePrivateKey | dss.cpp:121-128 | x is a draw reduced below q: 0 ≤ x < q |
| KeyGen.KeyGeneration | dss.cpp:131-142 | the parameters have p prime, q dividing p − 1, p, q and h taken from their draws, g = h^((p−1)/q) mod p, and g^q ≡ h^(p−1) (mod p); x is the x draw reduced modulo q; y = g^x mod p < p |
| KeyGen.GeneratedKeysVerify | dss.cpp:131-142 | over parameters and keys of the shape KeyGeneration ensures, if h^(p−1) ≡ 1 (mod p) (Fermat), a section 4.6 signature with s invertible verifies |

## Findings

| source | as written | input that shows it | evidently intended | confidence | as-written member | corrected member |
|---|---|---|---|---|---|---|
| dss.cpp:165 | r = g^k mod q | p = 23, q = 11, g = 4, x = 1, y = 4, k = 3, all-zero digest: signature (9, 3), verification computes v = 7 and rejects | r = (g^k mod p) mod q (FIPS 186-4 section 4.6) | high; not executed | Dsa.SignAsWritten, Dsa.AsWrittenRoundTripFails | Dsa.Sign, Dsa.SignVerify |
| dss.cpp:93 | the loop repeats while (p−1) mod q = 0, so it stops on a q that does not divide p − 1, contrary to the comment at dss.cpp:79 | p = 23, draws 11 then 5: 11 divides 22 and is skipped, 5 is returned | stop on the first q dividing p − 1 | high; not executed | KeyGen.GenerateQAsWritten, KeyGen.GenerateQSmallExample | KeyGen.GenerateQ, KeyGen.DeriveGeneratorOrder |
| dss.cpp:85 | the public p is decremented in place, so the key publishes prime − 1 as modulus and g = h^((prime−2)/q) mod (prime−1) | generated prime 23: the published modulus is 22, which is even | publish the prime p and set g = h^((p−1)/q) mod p | high; not executed | KeyGen.GeneratePublicKeyAsWritten, KeyGen.PublishedModulusComposite | KeyGen.GeneratePublicKey, KeyGen.GeneratedKeysVerify |
| dss.cpp:184-206 | r and s are not range-checked before verification | small key above: (7, 6), (7, 17) and (7, −5) are all verified | reject unless 0 < r < q and 0 < s < q (FIPS 186-4 section 4.7) | medium; not executed | Dsa.VerifyIgnoresSRange, Dsa.ShiftedSAcceptedSmallKey | Dsa.VerifyChecked, Dsa.SignVerify |

## Left out

- SHA-1 (dss.cpp:166, dss.cpp:190) is an OpenSSL call. It is a parameter: any function from messages to 20-byte digests.
- The Mersenne-Twister state, `randomStateInit` and the global `seed` counter (dss.cpp:15, dss.cpp:40-44) are left out. Each loop reads its own finite sequence of abstract draws. The determinism that the fixed starting seed 353 gives the program is not modelled.
- mpz_urandomm draws below n are raw values reduced modulo n.
- The 1024-bit range of mpz_rrandomb (dss.cpp:49, dss.cpp:57) is not imposed on draws.
- dss.cpp:91 passes the mpz_t `n` (set to 160 at dss.cpp:84) where mpz_urandomb takes a bit count, which is ill-formed as written. A 160-bit draw is the evident intent, and that range is not imposed on draws either.
- generateQ never tests q for primality, and the model does not assume it.
- mpz_millerrabin is an abstract oracle `isPrime`. The model assumes only that it accepts nothing below 2. `IsPrime` (trial division) is used only to state that an even modulus is composite.
- The retry loops have no bound in the program. When a finite draw sequence runs out, the model ends the search with `Exhausted`.
- A zero draw in generateQ traps on division by zero in the program. The model returns `DivisionByZero`, and parameter generation returns `None`.
- Signing requires q > 0, and verification requires p > 0 and q > 0: a zero modulus is a division by zero in mpz_powm/mpz_mod.
- A failed mpz_invert leaves its output undefined and the program continues with it. The model stops instead: signing returns `None`, verification returns `NoInverse`.
- `main` (dss.cpp:223-280) and all console output, including the printing in signing and verification (dss.cpp:169, dss.cpp:193, dss.cpp:206-218), are left out. Verification returns a `Verdict`.
- `mpz_inits`/`mpz_clears` and the variable-length copy of the message (dss.cpp:162-163, dss.cpp:188-189) are memory management only. The message is its byte sequence.
- encodeText writes into a caller array of unchecked size. The model returns the byte sequence, and overflow of that array is not modelled.
- Fermat's little theorem is not proved. `KeyGen.GeneratedKeysVerify` takes h^(p−1) ≡ 1 (mod p) as a hypothesis, which the theorem supplies when p is prime and does not divide h.
- KeyGen.KeyGeneration: built on the corrected `GeneratePublicKey`. The as-written parameter generation is `GeneratePublicKeyAsWritten`. It states that p, q and h come from their draw sequences and that x is xDraw reduced modulo q, but not that p, q and h are the first accepted draws. The component methods state that.
- KeyGen.GeneratePublicKeyAsWritten: states that p (or p + 1 as written), q and h come from their draw sequences, but not that they are the first accepted draws. The component methods state that.
- KeyGen.GeneratePublicKey: states that p (or p + 1 as written), q and h come from their draw sequences, but not that they are the first accepted draws. The component methods state that.

=== FILE: Codec.dfy ===
/**
 * decodeText and encodeText: conversion between big-endian unsigned byte
 * strings and non-negative integers (mpz_import / mpz_export with one-byte
 * words, most significant word first, no nail bits).
 */
module Codec {
  import opened ModArith

  type Byte = b: nat | b < 256

  /** A run of n zero bytes. */
  function Zeros(n: nat): (z: seq<Byte>)
    ensures |z| == n
    ensures forall i | 0 <= i < n :: z[i] == 0
  {
    seq(n, _ => 0)
  }

  /** decodeText: the bytes read as a base-256 numeral, most significant first. */
  function Decode(bs: seq<Byte>): (n: nat)
    decreases |bs|
    ensures bs != [] ==> n % 256 == bs[|bs| - 1]
  {
    if bs == [] then 0
    else
      var init, last := bs[..|bs| - 1], bs[|bs| - 1];
      ModUnique(Decode(init) * 256 + last, 256, Decode(init), last);
      Decode(init) * 256 + last
  }

  /** encodeText: the shortest big-endian byte string of n (empty for zero). */
  function Encode(n: nat): (bs: seq<Byte>)
    decreases n
    ensures n > 0 ==> |bs| > 0 && bs[|bs| - 1] == n % 256
  {
    if n == 0 then [] else Encode(n / 256) + [n % 256]
  }

  /** The positional reading of a byte string: the sum of b[i] * 256^(len - 1 - i). */
  function PositionalValue(bs: seq<Byte>): nat
    decreases |bs|
  {
    if bs == [] then 0 else bs[0] * Pow(256, |bs| - 1) + PositionalValue(bs[1..])
  }

  /** decodeText agrees with the positional reading of its bytes. */
  lemma {:induction false} DecodeIsPositional(bs: seq<Byte>)
    ensures Decode(bs) == PositionalValue(bs)
    decreases |bs|
  {
    if bs != [] {
      assert [bs[0]] + bs[1..] == bs;
      assert Decode([bs[0]]) == bs[0];
      DecodeAppend([bs[0]], bs[1..]);
      DecodeIsPositional(bs[1..]);
    }
  }

  /** A decoded value always fits in as many bytes as were read. */
  lemma {:induction false} DecodeBound(bs: seq<Byte>)
    ensures Decode(bs) < Pow(256, |bs|)
    decreases |bs|
  {
    if bs != [] {
      var init := bs[..|bs| - 1];
      DecodeBound(init);
      assert Decode(init) + 1 <= Pow(256, |init|);
      MulMonotone(256, Decode(init) + 1, Pow(256, |init|));
    }
  }

  /** Decoding a concatenation: the high part is shifted by the length of the low part. */
  lemma {:induction false} DecodeAppend(hi: seq<Byte>, lo: seq<Byte>)
    ensures Decode(hi + lo) == Decode(hi) * Pow(256, |lo|) + Decode(lo)
    decreases |lo|
  {
    if lo == [] {
      assert hi + lo == hi;
    } else {
      var s := hi + lo;
      var loInit := lo[..|lo| - 1];
      assert s[..|s| - 1] == hi + loInit;
      DecodeAppend(hi, loInit);
      calc {
        Decode(s);
      ==
        Decode(hi + loInit) * 256 + lo[|lo| - 1];
      ==
        (Decode(hi) * Pow(256, |loInit|) + Decode(loInit)) * 256 + lo[|lo| - 1];
      ==  { MulAddDistribRight(Decode(hi) * Pow(256, |loInit|), Decode(loInit), 256);
            MulAssoc(Decode(hi), Pow(256, |loInit|), 256); }
        Decode(hi) * (Pow(256, |loInit|) * 256) + (Decode(loInit) * 256 + lo[|lo| - 1]);
      ==
        Decode(hi) * Pow(256, |lo|) + Decode(lo);
      }
    }
  }

  lemma {:induction false} DecodeZeros(n: nat)
    ensures Decode(Zeros(n)) == 0
    decreases n
  {
    if n > 0 {
      assert Zeros(n)[..n - 1] == Zeros(n - 1);
      DecodeZeros(n - 1);
    }
  }

  /** Leading zero bytes do not change the decoded value. */
  lemma LeadingZerosIgnored(n: nat, bs: seq<Byte>)
    ensures Decode(Zeros(n) + bs) == Decode(bs)
  {
    DecodeAppend(Zeros(n), bs);
    DecodeZeros(n);
  }

  /** Trailing zero bytes multiply the value by 256 per byte. */
  lemma TrailingZerosShift(bs: seq<Byte>, n: nat)
    ensures Decode(bs + Zeros(n)) == Decode(bs) * Pow(256, n)
  {
    DecodeAppend(bs, Zeros(n));
    DecodeZeros(n);
  }

  /** Round trip: decodeText undoes encodeText. */
  lemma {:induction false} DecodeEncode(n: nat)
    ensures Decode(Encode(n)) == n
    decreases n
  {
    if n > 0 {
      var e := Encode(n);
      assert e[..|e| - 1] == Encode(n / 256);
      DecodeEncode(n / 256);
    }
  }

  /** encodeText writes no leading zero byte. */
  lemma {:induction false} EncodeMinimal(n: nat)
    ensures Encode(n) == [] <==> n == 0
    ensures Encode(n) != [] ==> Encode(n)[0] != 0
    decreases n
  {
    if n > 0 {
      EncodeMinimal(n / 256);
    }
  }

  /** The length of encodeText's output is the least byte count that can hold n. */
  lemma {:induction false} EncodeLength(n: nat)
    ensures n < Pow(256, |Encode(n)|)
    ensures n > 0 ==> Pow(256, |Encode(n)| - 1) <= n
    decreases n
  {
    DecodeEncode(n);
    DecodeBound(Encode(n));
    if n > 0 {
      EncodeMinimal(n);
      var e := Encode(n);
      EncodeLength(n / 256);
      if n / 256 == 0 {
        assert |e| == 1;
      } else {
        assert Pow(256, |e| - 2) * 256 <= (n / 256) * 256;
      }
    }
  }

  /** Round trip the other way: encodeText recovers a byte string that has no leading zero. */
  lemma {:induction false} EncodeDecode(bs: seq<Byte>)
    requires bs == [] || bs[0] != 0
    ensures Encode(Decode(bs)) == bs
    decreases |bs|
  {
    if bs != [] {
      var init := bs[..|bs| - 1];
      var n := Decode(bs);
      assert n / 256 == Decode(init) && n % 256 == bs[|bs| - 1] by {
        ModUnique(n, 256, Decode(init), bs[|bs| - 1]);
      }
      if init == [] {
        assert n == bs[0] && n != 0;
      } else {
        assert init[0] == bs[0];
        EncodeDecode(init);
        assert Decode(init) > 0 by {
          EncodeMinimal(Decode(init));
        }
      }
      assert Encode(n) == Encode(Decode(init)) + [bs[|bs| - 1]];
    }
  }
}

=== FILE: Dsa.dfy ===
/**
 * Signing and verification (FIPS 186-4 sections 4.6 and 4.7) as dss.cpp
 * performs them, on mathematical integers. SHA-1 is a parameter: any function
 * from messages to 20-byte digests.
 */
module Dsa {
  import opened Wrappers
  import opened ModArith
  import opened Codec

  /** SHA-1 writes a 20-byte digest into the front of a zeroed 160-byte buffer. */
  const DIGEST_LENGTH: nat := 20
  const HASH_BUFFER_LENGTH: nat := 160

  type Digest = d: seq<Byte> | |d| == 20 witness Zeros(20)

  /** The public key record: modulus p, subgroup order q, generator g, public value y. */
  datatype PublicKey = PublicKey(p: nat, q: nat, g: nat, y: nat)

  datatype PrivateKey = PrivateKey(x: nat)

  /**
   * A signature as verification receives it: signed integers, since the
   * program reads r and s from the console into mpz_t values.
   */
  datatype Signature = Signature(r: int, s: int)

  /** Outcome of verification; NoInverse is the case where s has no inverse modulo q. */
  datatype Verdict = Verified | Rejected | NoInverse

  /** The values verification computes on its way to v. */
  datatype Trace = Trace(w: nat, u1: nat, u2: nat, v: nat)

  /** The 160-byte hash buffer: the digest followed by zero bytes. */
  function HashBuffer(digest: Digest): (buf: seq<Byte>)
    ensures |buf| == HASH_BUFFER_LENGTH
    ensures buf[..DIGEST_LENGTH] == digest
    ensures forall i | DIGEST_LENGTH <= i < HASH_BUFFER_LENGTH :: buf[i] == 0
  {
    digest + Zeros(HASH_BUFFER_LENGTH - DIGEST_LENGTH)
  }

  /**
   * The integer both signing and verification derive from a message: the
   * whole 160-byte buffer decoded, which is the digest shifted up by 140 bytes.
   */
  function HashValue(sha1: seq<Byte> -> Digest, msg: seq<Byte>): (h: nat)
    ensures h == Decode(sha1(msg)) * Pow(256, HASH_BUFFER_LENGTH - DIGEST_LENGTH)
    ensures h < Pow(256, HASH_BUFFER_LENGTH)
  {
    var buf := HashBuffer(sha1(msg));
    TrailingZerosShift(sha1(msg), HASH_BUFFER_LENGTH - DIGEST_LENGTH);
    DecodeBound(buf);
    Decode(buf)
  }

  /**
   * The s component: s = k^-1 * (h + x * r) mod q, or None when k has no
   * inverse modulo q.
   */
  function SignatureS(h: nat, x: nat, r: nat, k: nat, q: nat): (s: Option<nat>)
    requires q > 0
    ensures s.Some? <==> Gcd(k, q) == 1
    ensures s.Some? ==> s.value < q && (s.value * k) % q == (h + x * r) % q
  {
    var kInv := Inverse(k, q);
    if kInv.None? then None
    else
      var s := (((x * r + h) % q) * kInv.value) % q;
      SignatureSCongruence(h, x, r, k, kInv.value, q);
      Some(s)
  }

  lemma SignatureSCongruence(h: nat, x: nat, r: nat, k: nat, kInv: nat, q: nat)
    requires q > 0
    requires (k * kInv) % q == 1 % q
    ensures (((((x * r + h) % q) * kInv) % q) * k) % q == (h + x * r) % q
  {
    assert kInv * k == k * kInv;
    CancelInverse((x * r + h) % q, kInv, k, q);
    ModMod(x * r + h, q);
    assert x * r + h == h + x * r;
  }

  /** Within [0, q), the congruence s * k == h + x * r (mod q) has only the solution SignatureS finds. */
  lemma SignatureSUnique(h: nat, x: nat, r: nat, k: nat, q: nat, s': nat)
    requires q > 0
    requires SignatureS(h, x, r, k, q).Some?
    requires s' < q && (s' * k) % q == (h + x * r) % q
    ensures s' == SignatureS(h, x, r, k, q).value
  {
    var s := SignatureS(h, x, r, k, q).value;
    var w := Inverse(k, q).value;
    CancelInverse(s, k, w, q);
    CancelInverse(s', k, w, q);
    ModUnique(s, q, 0, s);
    ModUnique(s', q, 0, s');
  }

  /**
   * signingAlgoritm as written: r is g^k reduced modulo q, not modulo p and
   * then q.
   */
  function SignAsWritten(sha1: seq<Byte> -> Digest, msg: seq<Byte>, pub: PublicKey, priv: PrivateKey, k: nat): (sig: Option<Signature>)
    requires pub.q > 0
    ensures sig.Some? <==> Gcd(k, pub.q) == 1
    ensures sig.Some? ==> sig.value.r == PowMod(pub.g, k, pub.q)
    ensures sig.Some? ==> 0 <= sig.value.r < pub.q && 0 <= sig.value.s < pub.q
    ensures sig.Some? ==> (sig.value.s * k) % pub.q == (HashValue(sha1, msg) + priv.x * sig.value.r) % pub.q
  {
    var r := PowMod(pub.g, k, pub.q);
    var s := SignatureS(HashValue(sha1, msg), priv.x, r, k, pub.q);
    if s.None? then None else Some(Signature(r, s.value))
  }

  /** Signing as FIPS 186-4 section 4.6 specifies it: r = (g^k mod p) mod q. */
  function Sign(sha1: seq<Byte> -> Digest, msg: seq<Byte>, pub: PublicKey, priv: PrivateKey, k: nat): (sig: Option<Signature>)
    requires pub.p > 0 && pub.q > 0
    ensures sig.Some? <==> Gcd(k, pub.q) == 1
    ensures sig.Some? ==> sig.value.r == PowMod(pub.g, k, pub.p) % pub.q
    ensures sig.Some? ==> 0 <= sig.value.r < pub.q && 0 <= sig.value.s < pub.q
    ensures sig.Some? ==> (sig.value.s * k) % pub.q == (HashValue(sha1, msg) + priv.x * sig.value.r) % pub.q
  {
    var r := PowMod(pub.g, k, pub.p) % pub.q;
    var s := SignatureS(HashValue(sha1, msg), priv.x, r, k, pub.q);
    if s.None? then None else Some(Signature(r, s.value))
  }

  /**
   * The intermediate values of signatureVerification: w = s^-1 mod q,
   * u1 = h * w mod q, u2 = r * w mod q and
   * v = ((g^u1 mod p) * (y^u2 mod p) mod p) mod q. None when s has no inverse.
   * mpz_invert takes a negative s as its residue s mod q, and mpz_mod leaves
   * a result in [0, q) whatever the sign of r.
   */
  function VerificationTrace(sha1: seq<Byte> -> Digest, msg: seq<Byte>, sig: Signature, pub: PublicKey): (t: Option<Trace>)
    requires pub.p > 0 && pub.q > 0
    ensures t.Some? <==> Gcd(sig.s % pub.q, pub.q) == 1
    ensures t.Some? ==> t.value.w < pub.q && (sig.s * t.value.w) % pub.q == 1 % pub.q
    ensures t.Some? ==> t.value.u1 == (HashValue(sha1, msg) * t.value.w) % pub.q && t.value.u1 < pub.q
    ensures t.Some? ==> t.value.u2 == (sig.r * t.value.w) % pub.q && t.value.u2 < pub.q
    ensures t.Some? ==> t.value.v < pub.q
  {
    var sInv := Inverse(sig.s % pub.q, pub.q);
    if sInv.None? then None
    else
      var w := sInv.value % pub.q;
      ModSmall(sInv.value, pub.q);
      MulModLeft(sig.s, w, pub.q);
      var u1 := (HashValue(sha1, msg) * w) % pub.q;
      var u2 := (sig.r * w) % pub.q;
      var v := ((PowMod(pub.g, u1, pub.p) * PowMod(pub.y, u2, pub.p)) % pub.p) % pub.q;
      Some(Trace(w, u1, u2, v))
  }

  /**
   * signatureVerification as written: accept iff v == r; r and s are not
   * range-checked, so a negative r is rejected only because v is not negative.
   */
  function Verify(sha1: seq<Byte> -> Digest, msg: seq<Byte>, sig: Signature, pub: PublicKey): (verdict: Verdict)
    requires pub.p > 0 && pub.q > 0
    ensures verdict == NoInverse <==> Gcd(sig.s % pub.q, pub.q) != 1
    ensures verdict == Verified <==>
      VerificationTrace(sha1, msg, sig, pub).Some? && VerificationTrace(sha1, msg, sig, pub).value.v == sig.r
    ensures verdict == Verified ==> 0 <= sig.r < pub.q
  {
    var t := VerificationTrace(sha1, msg, sig, pub);
    if t.None? then NoInverse
    else if t.value.v == sig.r then Verified
    else Rejected
  }

  /** Verification with the range checks of FIPS 186-4 section 4.7: 0 < r < q and 0 < s < q. */
  function VerifyChecked(sha1: seq<Byte> -> Digest, msg: seq<Byte>, sig: Signature, pub: PublicKey): (verdict: Verdict)
    requires pub.p > 0 && pub.q > 0
    ensures !(0 < sig.r < pub.q && 0 < sig.s < pub.q) ==> verdict == Rejected
    ensures 0 < sig.r < pub.q && 0 < sig.s < pub.q ==> verdict == Verify(sha1, msg, sig, pub)
  {
    if 0 < sig.r < pub.q && 0 < sig.s < pub.q then Verify(sha1, msg, sig, pub) else Rejected
  }

  // ---------------------------------------------------------------------------
  // Why verification works.

  /** The exponent u1 + x * u2 is congruent to the nonce k modulo q. */
  lemma {:induction false} ExponentRecoversNonce(h: nat, x: nat, r: int, s: int, k: nat, w: nat, q: nat)
    requires q > 0
    requires (s * w) % q == 1 % q
    requires (s * k) % q == (h + x * r) % q
    ensures ((h * w) % q + x * ((r * w) % q)) % q == k % q
  {
    var u1, u2 := (h * w) % q, (r * w) % q;
    calc {
      (u1 + x * u2) % q;
    ==  { AddModBoth(u1, x * u2, q); MulModRight(x, r * w, q); }
      (u1 % q + (x * (r * w)) % q) % q;
    ==  { ModMod(h * w, q); MulAssoc(x, r, w); }
      ((h * w) % q + ((x * r) * w) % q) % q;
    ==  { AddModBoth(h * w, (x * r) * w, q); }
      (h * w + (x * r) * w) % q;
    ==  { MulAddDistribRight(h, x * r, w); }
      ((h + x * r) * w) % q;
    ==  { MulModLeft(h + x * r, w, q); }
      (((h + x * r) % q) * w) % q;
    ==
      (((s * k) % q) * w) % q;
    ==  { assert s * k == k * s; CancelInverse(k, s, w, q); }
      k % q;
    }
  }

  /** With y = g^x mod p: (g^u1 mod p) * (y^u2 mod p) mod p == g^(u1 + x * u2) mod p. */
  lemma CombinePowers(g: nat, x: nat, u1: nat, u2: nat, p: nat)
    requires p > 0
    ensures (PowMod(g, u1, p) * PowMod(PowMod(g, x, p), u2, p)) % p == Pow(g, u1 + x * u2) % p
  {
    calc {
      PowMod(PowMod(g, x, p), u2, p);
    ==
      Pow(Pow(g, x) % p, u2) % p;
    ==  { PowModBase(Pow(g, x), u2, p); }
      Pow(Pow(g, x), u2) % p;
    ==  { PowMul(g, x, u2); }
      Pow(g, x * u2) % p;
    }
    calc {
      (PowMod(g, u1, p) * PowMod(PowMod(g, x, p), u2, p)) % p;
    ==
      ((Pow(g, u1) % p) * (Pow(g, x * u2) % p)) % p;
    ==  { MulModBoth(Pow(g, u1), Pow(g, x * u2), p); }
      (Pow(g, u1) * Pow(g, x * u2)) % p;
    ==  { PowAdd(g, u1, x * u2); }
      Pow(g, u1 + x * u2) % p;
    }
  }

  /**
   * The verification equation: when g has order dividing q modulo p,
   * y = g^x mod p and s * k == h + x * r (mod q) with s invertible, the v
   * that verification computes is (g^k mod p) mod q.
   */
  lemma VerifierRecoversCommitment(sha1: seq<Byte> -> Digest, msg: seq<Byte>, sig: Signature, pub: PublicKey, x: nat, k: nat)
    requires pub.p > 0 && pub.q > 0
    requires Pow(pub.g, pub.q) % pub.p == 1 % pub.p
    requires pub.y == PowMod(pub.g, x, pub.p)
    requires Gcd(sig.s % pub.q, pub.q) == 1
    requires (sig.s * k) % pub.q == (HashValue(sha1, msg) + x * sig.r) % pub.q
    ensures VerificationTrace(sha1, msg, sig, pub).Some?
    ensures VerificationTrace(sha1, msg, sig, pub).value.v == PowMod(pub.g, k, pub.p) % pub.q
  {
    var p, q, g := pub.p, pub.q, pub.g;
    var t := VerificationTrace(sha1, msg, sig, pub).value;
    var h := HashValue(sha1, msg);
    ExponentRecoversNonce(h, x, sig.r, sig.s, k, t.w, q);
    var e := t.u1 + x * t.u2;
    CombinePowers(g, x, t.u1, t.u2, p);
    ExponentModOrder(g, e, q, p);
    ExponentModOrder(g, k, q, p);
  }

  /**
   * The code's own round trip: a signature produced by signingAlgoritm
   * verifies exactly when g^k mod q equals (g^k mod p) mod q.
   */
  lemma SignVerifyAsWritten(sha1: seq<Byte> -> Digest, msg: seq<Byte>, pub: PublicKey, priv: PrivateKey, k: nat)
    requires pub.p > 0 && pub.q > 0
    requires Pow(pub.g, pub.q) % pub.p == 1 % pub.p
    requires pub.y == PowMod(pub.g, priv.x, pub.p)
    requires SignAsWritten(sha1, msg, pub, priv, k).Some?
    requires Gcd(SignAsWritten(sha1, msg, pub, priv, k).value.s, pub.q) == 1
    ensures var sig := SignAsWritten(sha1, msg, pub, priv, k).value;
      Verify(sha1, msg, sig, pub) == Verified <==> PowMod(pub.g, k, pub.q) == PowMod(pub.g, k, pub.p) % pub.q
  {
    var sig := SignAsWritten(sha1, msg, pub, priv, k).value;
    ModSmall(sig.s, pub.q);
    VerifierRecoversCommitment(sha1, msg, sig, pub, priv.x, k);
  }

  /**
   * Round trip for FIPS signing: a signature whose s is invertible modulo q
   * passes verification, with or without the range checks (the latter when
   * r and s are non-zero).
   */
  lemma SignVerify(sha1: seq<Byte> -> Digest, msg: seq<Byte>, pub: PublicKey, priv: PrivateKey, k: nat)
    requires pub.p > 0 && pub.q > 0
    requires Pow(pub.g, pub.q) % pub.p == 1 % pub.p
    requires pub.y == PowMod(pub.g, priv.x, pub.p)
    requires Sign(sha1, msg, pub, priv, k).Some?
    requires Gcd(Sign(sha1, msg, pub, priv, k).value.s, pub.q) == 1
    ensures var sig := Sign(sha1, msg, pub, priv, k).value;
      Verify(sha1, msg, sig, pub) == Verified &&
      (sig.r != 0 && sig.s != 0 ==> VerifyChecked(sha1, msg, sig, pub) == Verified)
  {
    var sig := Sign(sha1, msg, pub, priv, k).value;
    ModSmall(sig.s, pub.q);
    VerifierRecoversCommitment(sha1, msg, sig, pub, priv.x, k);
  }

  /**
   * Verification without range checks cannot tell s from s + n * q for any
   * integer n: an accepted (r, s) yields accepted (r, s + q) and (r, s - q),
   * which section 4.7 rejects.
   */
  lemma VerifyIgnoresSRange(sha1: seq<Byte> -> Digest, msg: seq<Byte>, r: int, s: int, n: int, pub: PublicKey)
    requires pub.p > 0 && pub.q > 0
    ensures Verify(sha1, msg, Signature(r, s + pub.q * n), pub) == Verify(sha1, msg, Signature(r, s), pub)
  {
    ModAddMultiple(s, pub.q, n);
  }

  /** A negative r is never verified, whatever s is. */
  lemma NegativeRRejected(sha1: seq<Byte> -> Digest, msg: seq<Byte>, r: int, s: int, pub: PublicKey)
    requires pub.p > 0 && pub.q > 0 && r < 0
    ensures Verify(sha1, msg, Signature(r, s), pub) != Verified
  {
  }

  // ---------------------------------------------------------------------------
  // Reusing a nonce.

  /**
   * From one signature (r, s) made with nonce k, anyone who knows k and the
   * hash recovers the private key: x == (s * k - h) * r^-1 mod q.
   */
  lemma {:induction false} NonceRevealsKey(h: nat, x: nat, r: nat, k: nat, q: nat, rInv: nat)
    requires q > 0 && x < q
    requires SignatureS(h, x, r, k, q).Some?
    requires (r * rInv) % q == 1 % q
    ensures x == (((SignatureS(h, x, r, k, q).value * k - h) % q) * rInv) % q
  {
    var s := SignatureS(h, x, r, k, q).value;
    calc {
      (s * k - h) % q;
    ==  { AddModBoth(s * k, -(h as int), q); }
      ((s * k) % q + (-(h as int)) % q) % q;
    ==
      ((h + x * r) % q + (-(h as int)) % q) % q;
    ==  { AddModBoth(h + x * r, -(h as int), q); }
      (x * r) % q;
    }
    CancelInverse(x, r, rInv, q);
    ModSmall(x, q);
  }

  /**
   * Signing two messages with the same nonce under the same key gives the
   * same r, both as written and as section 4.6 specifies; the first
   * signature and k then reveal x.
   */
  lemma NonceReuse(sha1: seq<Byte> -> Digest, msg1: seq<Byte>, msg2: seq<Byte>, pub: PublicKey, priv: PrivateKey, k: nat, rInv: nat)
    requires pub.p > 0 && pub.q > 0 && priv.x < pub.q
    requires Gcd(k, pub.q) == 1
    requires (Sign(sha1, msg1, pub, priv, k).value.r * rInv) % pub.q == 1 % pub.q
    ensures SignAsWritten(sha1, msg1, pub, priv, k).value.r == SignAsWritten(sha1, msg2, pub, priv, k).value.r
    ensures Sign(sha1, msg1, pub, priv, k).value.r == Sign(sha1, msg2, pub, priv, k).value.r
    ensures var sig := Sign(sha1, msg1, pub, priv, k).value;
      priv.x == (((sig.s * k - HashValue(sha1, msg1)) % pub.q) * rInv) % pub.q
  {
    var r := PowMod(pub.g, k, pub.p) % pub.q;
    NonceRevealsKey(HashValue(sha1, msg1), priv.x, r, k, pub.q, rInv);
  }

  // ---------------------------------------------------------------------------
  // A small parameter set: p = 23, q = 11, g = 4 (4 has order 11 modulo 23),
  // private key x = 1 (so y = 4), nonce k = 3, and a hash that maps the
  // message [1] to the digest 0...01 and every other message to the all-zero
  // digest.

  function SmallDigest(msg: seq<Byte>): Digest
  {
    if msg == [1] then Zeros(19) + [1] else Zeros(20)
  }

  /** The line-165 signature for the small parameter set is rejected by the code's own verifier. */
  lemma AsWrittenRoundTripFails()
    ensures var pub := PublicKey(23, 11, 4, 4);
      SignAsWritten(SmallDigest, [], pub, PrivateKey(1), 3) == Some(Signature(9, 3)) &&
      Verify(SmallDigest, [], Signature(9, 3), pub) == Rejected
  {
    AsWrittenSignSmallKey();
    SmallPowers();
    InverseOf3();
    SignVerifyAsWritten(SmallDigest, [], PublicKey(23, 11, 4, 4), PrivateKey(1), 3);
  }

  lemma AsWrittenSignSmallKey()
    ensures SignAsWritten(SmallDigest, [], PublicKey(23, 11, 4, 4), PrivateKey(1), 3) == Some(Signature(9, 3))
  {
    SmallHash();
    SmallPowers();
    SmallSignatureS();
  }

  /** The section 4.6 signature for the same inputs verifies. */
  lemma FipsRoundTripSmallKey()
    ensures var pub := PublicKey(23, 11, 4, 4);
      Sign(SmallDigest, [], pub, PrivateKey(1), 3) == Some(Signature(7, 6)) &&
      VerifyChecked(SmallDigest, [], Signature(7, 6), pub) == Verified
  {
    var pub := PublicKey(23, 11, 4, 4);
    FipsSignSmallKey();
    SmallPowers();
    InverseOf6();
    SignVerify(SmallDigest, [], pub, PrivateKey(1), 3);
  }

  lemma FipsSignSmallKey()
    ensures Sign(SmallDigest, [], PublicKey(23, 11, 4, 4), PrivateKey(1), 3) == Some(Signature(7, 6))
  {
    SmallHash();
    SmallPowers();
    SmallSignatureS();
  }

  /**
   * Without the range check, (7, 6 + 11) and (7, 6 - 11) are accepted as
   * well; the checked verifier rejects both.
   */
  lemma ShiftedSAcceptedSmallKey()
    ensures var pub := PublicKey(23, 11, 4, 4);
      Verify(SmallDigest, [], Signature(7, 17), pub) == Verified &&
      VerifyChecked(SmallDigest, [], Signature(7, 17), pub) == Rejected &&
      Verify(SmallDigest, [], Signature(7, -5), pub) == Verified &&
      VerifyChecked(SmallDigest, [], Signature(7, -5), pub) == Rejected
  {
    var pub := PublicKey(23, 11, 4, 4);
    FipsRoundTripSmallKey();
    VerifyIgnoresSRange(SmallDigest, [], 7, 6, 1, pub);
    VerifyIgnoresSRange(SmallDigest, [], 7, 6, -1, pub);
  }

  lemma SmallHash()
    ensures HashValue(SmallDigest, []) == 0
  {
    DecodeZeros(20);
  }

  /** 4 has order 11 modulo 23; the powers of 4 the example needs. */
  lemma SmallPowers()
    ensures Pow(4, 11) % 23 == 1
    ensures PowMod(4, 0, 23) == 1 && PowMod(4, 1, 23) == 4 && PowMod(4, 5, 23) == 12 && PowMod(4, 3, 23) == 18 && PowMod(4, 3, 11) == 9
  {
    assert Pow(4, 3) == 64;
    assert Pow(4, 5) == 1024;
    assert Pow(4, 11) == 4194304;
  }

  /** s for r = 9 (as written) and for r = 7 (section 4.6), with h = 0, x = 1, k = 3. */
  lemma SmallSignatureS()
    ensures SignatureS(0, 1, 9, 3, 11) == Some(3)
    ensures SignatureS(0, 1, 7, 3, 11) == Some(6)
  {
    InverseOf3();
  }

  lemma InverseOf3()
    ensures Inverse(3, 11) == Some(4) && Gcd(3, 11) == 1
  {
  }

  lemma InverseOf6()
    ensures Inverse(6, 11) == Some(2) && Gcd(6, 11) == 1
  {
  }

  /** The hash of the message [1] is 256^140, which is 1 modulo 11 (256 == 3 and 3^5 == 1 modulo 11). */
  lemma TamperedHash()
    ensures HashValue(SmallDigest, [1]) % 11 == 1
  {
    assert SmallDigest([1]) == Zeros(19) + [1];
    LeadingZerosIgnored(19, [1]);
    assert Decode([1]) == 1;
    PowModBase(256, 140, 11);
    assert Pow(3, 5) == 243;
    ExponentModOrder(3, 140, 5, 11);
  }

  /** (7, 6) signs [] under the small key; for the message [1] the verifier computes v = 1 and rejects it. */
  lemma TamperedMessageRejected()
    ensures Verify(SmallDigest, [1], Signature(7, 6), PublicKey(23, 11, 4, 4)) == Rejected
  {
    TamperedHash();
    SmallKeyRejectsHashOne(SmallDigest, [1]);
  }

  /** Under the small key, (7, 6) is rejected for every message whose hash is 1 modulo 11. */
  lemma SmallKeyRejectsHashOne(sha1: seq<Byte> -> Digest, msg: seq<Byte>)
    requires HashValue(sha1, msg) % 11 == 1
    ensures Verify(sha1, msg, Signature(7, 6), PublicKey(23, 11, 4, 4)) == Rejected
  {
    var pub := PublicKey(23, 11, 4, 4);
    SmallNonceFive(HashValue(sha1, msg));
    SmallPowers();
    InverseOf6();
    VerifyDecidedByCommitment(sha1, msg, Signature(7, 6), pub, 1, 5);
  }

  /** 6 * 5 == h + 1 * 7 (mod 11) when h == 1 (mod 11): the nonce (7, 6) would need is 5. */
  lemma SmallNonceFive(h: nat)
    requires h % 11 == 1
    ensures (6 * 5) % 11 == (h + 1 * 7) % 11
  {
    AddModBoth(h, 7, 11);
  }

  /**
   * Under the hypotheses of VerifierRecoversCommitment, the verdict is
   * Verified exactly when r is the commitment (g^k mod p) mod q.
   */
  lemma VerifyDecidedByCommitment(sha1: seq<Byte> -> Digest, msg: seq<Byte>, sig: Signature, pub: PublicKey, x: nat, k: nat)
    requires pub.p > 0 && pub.q > 0
    requires Pow(pub.g, pub.q) % pub.p == 1 % pub.p
    requires pub.y == PowMod(pub.g, x, pub.p)
    requires Gcd(sig.s % pub.q, pub.q) == 1
    requires (sig.s * k) % pub.q == (HashValue(sha1, msg) + x * sig.r) % pub.q
    ensures Verify(sha1, msg, sig, pub) == Verified <==> sig.r == PowMod(pub.g, k, pub.p) % pub.q
  {
    VerifierRecoversCommitment(sha1, msg, sig, pub, x, k);
  }
}

=== FILE: KeyGen.dfy ===
/**
 * Domain parameter and key generation of dss.cpp: the retry loops of
 * generatePrimes, generateQ and getGenerator over abstract sequences of
 * random draws, the derivation of g from h, and of the key pair.
 *
 * A draw of mpz_urandomm(., n) is an abstract raw value reduced modulo n;
 * the draws of mpz_rrandomb and mpz_urandomb are abstract values, and
 * mpz_millerrabin is an abstract oracle isPrime. A finite draw sequence that
 * runs out ends a search with Exhausted where the program would go on drawing.
 */
module KeyGen {
  import opened Wrappers
  import opened ModArith
  import opened Codec
  import opened Dsa

  /**
   * The end of a retry loop: the accepted value and how many draws it took,
   * the draws running out, or a zero divisor after the given number of draws.
   */
  datatype Search = Found(value: nat, attempts: nat) | Exhausted | DivisionByZero(attempts: nat)

  /**
   * getGenerator's exit test: gcd(h, q) == 1. Its other half, h == 0,
   * compares a handle and is never true; for q > 1 the gcd test alone
   * already refuses h == 0.
   */
  predicate GeneratorAccepted(h: nat, q: nat): (ok: bool)
    ensures ok && q > 1 ==> h > 0
  {
    assert Gcd(0, q) == Gcd(q, 0);
    Gcd(h, q) == 1
  }

  /**
   * generateQ's exit test on a non-zero draw q: the loop ends when
   * (p - 1) mod q == 0 is exitWhenDivides (false as written, true as the
   * comment on the function intends).
   */
  predicate QExit(pMinusOne: int, q: nat, exitWhenDivides: bool): (ok: bool)
    requires q > 0
    ensures ok <==> (exitWhenDivides <==> pMinusOne == q * (pMinusOne / q))
  {
    (pMinusOne % q == 0) == exitWhenDivides
  }

  /** generatePrimes: the first draw the primality oracle accepts. */
  method GeneratePrimes(draws: seq<nat>, isPrime: nat -> bool) returns (res: Search)
    ensures !res.DivisionByZero?
    ensures res.Found? ==> 0 < res.attempts <= |draws| && res.value == draws[res.attempts - 1] && isPrime(res.value)
    ensures res.Found? ==> forall i | 0 <= i < res.attempts - 1 :: !isPrime(draws[i])
    ensures res.Exhausted? ==> forall i | 0 <= i < |draws| :: !isPrime(draws[i])
  {
    if |draws| == 0 {
      return Exhausted;
    }
    var prime := draws[0];
    var used := 1;
    while !isPrime(prime)
      invariant 0 < used <= |draws| && prime == draws[used - 1]
      invariant forall i | 0 <= i < used - 1 :: !isPrime(draws[i])
      decreases |draws| - used
    {
      if used == |draws| {
        return Exhausted;
      }
      prime := draws[used];
      used := used + 1;
    }
    res := Found(prime, used);
  }

  /**
   * getGenerator: the first draw h in [0, q) coprime to q; for q > 1 this
   * excludes h == 0.
   */
  method GetGenerator(q: nat, draws: seq<nat>) returns (res: Search)
    requires q > 0
    ensures !res.DivisionByZero?
    ensures res.Found? ==> 0 < res.attempts <= |draws| && res.value == draws[res.attempts - 1] % q
    ensures res.Found? ==> res.value < q && GeneratorAccepted(res.value, q) && (q > 1 ==> res.value > 0)
    ensures res.Found? ==> forall i | 0 <= i < res.attempts - 1 :: !GeneratorAccepted(draws[i] % q, q)
    ensures res.Exhausted? ==> forall i | 0 <= i < |draws| :: !GeneratorAccepted(draws[i] % q, q)
  {
    var used := 0;
    var h: nat;
    while true
      invariant 0 <= used <= |draws|
      invariant forall i | 0 <= i < used :: !GeneratorAccepted(draws[i] % q, q)
      decreases |draws| - used
    {
      if used == |draws| {
        return Exhausted;
      }
      h := draws[used] % q;
      used := used + 1;
      if GeneratorAccepted(h, q) {
        break;
      }
    }
    res := Found(h, used);
  }

  /**
   * The loop of generateQ: draw q until the exit test holds. A zero draw is a
   * division by zero in the remainder (mpz_mod).
   */
  method SearchQ(pMinusOne: int, draws: seq<nat>, exitWhenDivides: bool) returns (res: Search)
    ensures res.Found? ==> 0 < res.attempts <= |draws| && res.value == draws[res.attempts - 1]
    ensures res.Found? ==> res.value > 0 && QExit(pMinusOne, res.value, exitWhenDivides)
    ensures res.DivisionByZero? ==> 0 < res.attempts <= |draws| && draws[res.attempts - 1] == 0
    ensures res.Found? || res.DivisionByZero? ==>
      forall i | 0 <= i < res.attempts - 1 :: draws[i] > 0 && !QExit(pMinusOne, draws[i], exitWhenDivides)
    ensures res.Exhausted? ==> forall i | 0 <= i < |draws| :: draws[i] > 0 && !QExit(pMinusOne, draws[i], exitWhenDivides)
  {
    var used := 0;
    var q: nat;
    while true
      invariant 0 <= used <= |draws|
      invariant forall i | 0 <= i < used :: draws[i] > 0 && !QExit(pMinusOne, draws[i], exitWhenDivides)
      decreases |draws| - used
    {
      if used == |draws| {
        return Exhausted;
      }
      q := draws[used];
      used := used + 1;
      if q == 0 {
        return DivisionByZero(used);
      }
      if QExit(pMinusOne, q, exitWhenDivides) {
        break;
      }
    }
    res := Found(q, used);
  }

  /**
   * generateQ as written: p is decremented in place, and the loop ends on the
   * first q that does NOT divide p - 1.
   */
  method GenerateQAsWritten(p: nat, draws: seq<nat>) returns (pOut: int, res: Search)
    ensures pOut == p - 1
    ensures res.Found? ==> res.value > 0 && (p - 1) % res.value != 0
    ensures res.Found? ==> 0 < res.attempts <= |draws| && res.value == draws[res.attempts - 1]
    ensures res.Found? ==> forall i | 0 <= i < res.attempts - 1 :: draws[i] > 0 && (p - 1) % draws[i] == 0
    ensures res.DivisionByZero? ==> 0 < res.attempts <= |draws| && draws[res.attempts - 1] == 0
    ensures res.DivisionByZero? ==> forall i | 0 <= i < res.attempts - 1 :: draws[i] > 0 && (p - 1) % draws[i] == 0
    ensures res.Exhausted? ==> forall i | 0 <= i < |draws| :: draws[i] > 0 && (p - 1) % draws[i] == 0
  {
    pOut := p - 1;
    res := SearchQ(pOut, draws, false);
  }

  /** generateQ as intended: p is left alone and the loop ends on the first q dividing p - 1. */
  method GenerateQ(p: nat, draws: seq<nat>) returns (res: Search)
    ensures res.Found? ==> res.value > 0 && (p - 1) % res.value == 0
    ensures res.Found? ==> 0 < res.attempts <= |draws| && res.value == draws[res.attempts - 1]
    ensures res.Found? ==> forall i | 0 <= i < res.attempts - 1 :: draws[i] > 0 && (p - 1) % draws[i] != 0
    ensures res.DivisionByZero? ==> 0 < res.attempts <= |draws| && draws[res.attempts - 1] == 0
    ensures res.DivisionByZero? ==> forall i | 0 <= i < res.attempts - 1 :: draws[i] > 0 && (p - 1) % draws[i] != 0
    ensures res.Exhausted? ==> forall i | 0 <= i < |draws| :: draws[i] > 0 && (p - 1) % draws[i] != 0
  {
    res := SearchQ(p - 1, draws, true);
  }

  /**
   * With p = 23 and the draws 11, 5: as written the divisor 11 of 22 is
   * skipped and 5 is returned; as intended 11 is returned at once.
   */
  method GenerateQSmallExample() returns (asWritten: Search, intended: Search)
    ensures asWritten == Found(5, 2) && 22 % 5 != 0
    ensures intended == Found(11, 1) && 22 % 11 == 0
  {
    var pOut;
    pOut, asWritten := GenerateQAsWritten(23, [11, 5]);
    intended := GenerateQ(23, [11, 5]);
    ghost var draws: seq<nat> := [11, 5];
    assert draws[0] == 11 && draws[1] == 5;
    assert (23 - 1) % 11 == 0 && (23 - 1) % 5 == 2;
  }

  /** g = h^((p - 1) / q) mod p, the last step of generatePublicKey. */
  function DeriveGenerator(h: nat, p: nat, q: nat): (g: nat)
    requires p > 0 && q > 0
    ensures g < p
  {
    PowMod(h, (p - 1) / q, p)
  }

  /**
   * When q divides p - 1, g^q == h^(p - 1) (mod p); for prime p and h not a
   * multiple of p, Fermat's little theorem makes this 1, so g generates a
   * subgroup whose order divides q.
   */
  lemma DeriveGeneratorOrder(h: nat, p: nat, q: nat)
    requires p > 0 && q > 0 && (p - 1) % q == 0
    ensures Pow(DeriveGenerator(h, p, q), q) % p == Pow(h, p - 1) % p
  {
    var d := (p - 1) / q;
    assert d * q == p - 1;
    calc {
      Pow(DeriveGenerator(h, p, q), q) % p;
    ==
      Pow(Pow(h, d) % p, q) % p;
    ==  { PowModBase(Pow(h, d), q, p); }
      Pow(Pow(h, d), q) % p;
    ==  { PowMul(h, d, q); }
      Pow(h, d * q) % p;
    }
  }

  /**
   * generatePublicKey as written: generateQ has already replaced the public
   * p by prime - 1, so the published modulus is prime - 1, q does not divide
   * prime - 1, and g is derived from that modulus.
   */
  method GeneratePublicKeyAsWritten(primeDraws: seq<nat>, isPrime: nat -> bool, qDraws: seq<nat>, hDraws: seq<nat>)
    returns (pub: Option<PublicKey>, h: nat)
    requires forall n: nat :: isPrime(n) ==> n >= 2
    ensures pub.Some? ==> isPrime(pub.value.p + 1) && pub.value.p + 1 in primeDraws && pub.value.q in qDraws
    ensures pub.Some? ==> pub.value.q > 0 && exists i | 0 <= i < |hDraws| :: h == hDraws[i] % pub.value.q
    ensures pub.Some? ==> pub.value.q > 0 && pub.value.p % pub.value.q != 0
    ensures pub.Some? ==> h < pub.value.q && GeneratorAccepted(h, pub.value.q)
    ensures pub.Some? ==> pub.value.p > 0 && pub.value.g == DeriveGenerator(h, pub.value.p, pub.value.q)
    ensures pub.Some? ==> pub.value.g < pub.value.p && pub.value.y == 0
  {
    h := 0;
    var prime := GeneratePrimes(primeDraws, isPrime);
    if !prime.Found? {
      return None, h;
    }
    var p, qRes := GenerateQAsWritten(prime.value, qDraws);
    if !qRes.Found? {
      return None, h;
    }
    var q := qRes.value;
    var hRes := GetGenerator(q, hDraws);
    if !hRes.Found? {
      return None, h;
    }
    h := hRes.value;
    var g := DeriveGenerator(h, p, q);
    pub := Some(PublicKey(p, q, g, 0));
  }

  /** Primality by trial division, the property the oracle isPrime approximates. */
  predicate IsPrime(n: nat)
  {
    n >= 2 && forall d: nat | 2 <= d < n :: n % d != 0
  }

  /**
   * The modulus published as written is one less than the prime found: for
   * any prime above 3 it is even, hence composite.
   */
  lemma PublishedModulusComposite(p: nat)
    requires IsPrime(p + 1) && p + 1 > 3
    ensures p % 2 == 0 && !IsPrime(p)
  {
    assert (p + 1) % 2 != 0;
    assert p % 2 == 0;
  }

  /**
   * generatePublicKey as intended: p is the prime found, q divides p - 1 and
   * g = h^((p - 1) / q) mod p, so g^q == h^(p - 1) (mod p).
   */
  method GeneratePublicKey(primeDraws: seq<nat>, isPrime: nat -> bool, qDraws: seq<nat>, hDraws: seq<nat>)
    returns (pub: Option<PublicKey>, h: nat)
    requires forall n: nat :: isPrime(n) ==> n >= 2
    ensures pub.Some? ==> isPrime(pub.value.p) && pub.value.p in primeDraws && pub.value.q in qDraws
    ensures pub.Some? ==> pub.value.q > 0 && exists i | 0 <= i < |hDraws| :: h == hDraws[i] % pub.value.q
    ensures pub.Some? ==> pub.value.q > 0 && (pub.value.p - 1) % pub.value.q == 0
    ensures pub.Some? ==> h < pub.value.q && GeneratorAccepted(h, pub.value.q)
    ensures pub.Some? ==> pub.value.p > 0 && pub.value.g == DeriveGenerator(h, pub.value.p, pub.value.q)
    ensures pub.Some? ==> pub.value.g < pub.value.p && pub.value.y == 0
    ensures pub.Some? ==> Pow(pub.value.g, pub.value.q) % pub.value.p == Pow(h, pub.value.p - 1) % pub.value.p
  {
    h := 0;
    var prime := GeneratePrimes(primeDraws, isPrime);
    if !prime.Found? {
      return None, h;
    }
    var p := prime.value;
    var qRes := GenerateQ(p, qDraws);
    if !qRes.Found? {
      return None, h;
    }
    var q := qRes.value;
    var hRes := GetGenerator(q, hDraws);
    if !hRes.Found? {
      return None, h;
    }
    h := hRes.value;
    var g := DeriveGenerator(h, p, q);
    DeriveGeneratorOrder(h, p, q);
    pub := Some(PublicKey(p, q, g, 0));
  }

  /** generatePrivateKey: x is a draw of mpz_urandomm below q, so 0 <= x < q (x == 0 is possible). */
  function GeneratePrivateKey(raw: nat, q: nat): (priv: PrivateKey)
    requires q > 0
    ensures priv.x < q
  {
    PrivateKey(raw % q)
  }

  /**
   * keyGeneration: domain parameters, then x, then y = g^x mod p (built on
   * the intended generatePublicKey). h is the value getGenerator drew, from
   * which g was derived.
   */
  method KeyGeneration(primeDraws: seq<nat>, isPrime: nat -> bool, qDraws: seq<nat>, hDraws: seq<nat>, xDraw: nat)
    returns (keys: Option<(PublicKey, PrivateKey)>, h: nat)
    requires forall n: nat :: isPrime(n) ==> n >= 2
    ensures keys.Some? ==> var (pub, priv) := keys.value;
      isPrime(pub.p) && pub.p > 0 && pub.q > 0 && (pub.p - 1) % pub.q == 0
    ensures keys.Some? ==> var (pub, priv) := keys.value;
      pub.p in primeDraws && pub.q in qDraws && (exists i | 0 <= i < |hDraws| :: h == hDraws[i] % pub.q)
    ensures keys.Some? ==> keys.value.1 == GeneratePrivateKey(xDraw, keys.value.0.q)
    ensures keys.Some? ==> var (pub, priv) := keys.value;
      h < pub.q && GeneratorAccepted(h, pub.q) && pub.g == DeriveGenerator(h, pub.p, pub.q) && pub.g < pub.p &&
      Pow(pub.g, pub.q) % pub.p == Pow(h, pub.p - 1) % pub.p
    ensures keys.Some? ==> var (pub, priv) := keys.value;
      priv.x < pub.q && pub.y == PowMod(pub.g, priv.x, pub.p) && pub.y < pub.p
  {
    var pub;
    pub, h := GeneratePublicKey(primeDraws, isPrime, qDraws, hDraws);
    if pub.None? {
      return None, h;
    }
    var priv := GeneratePrivateKey(xDraw, pub.value.q);
    var y := PowMod(pub.value.g, priv.x, pub.value.p);
    keys := Some((pub.value.(y := y), priv));
  }

  /**
   * End to end: parameters as generatePublicKey derives them (intended form),
   * a key pair as keyGeneration derives it, and a section 4.6 signature whose
   * s is invertible modulo q verify, given Fermat's little theorem for h.
   */
  lemma GeneratedKeysVerify(sha1: seq<Byte> -> Digest, msg: seq<Byte>, pub: PublicKey, priv: PrivateKey, h: nat, k: nat)
    requires pub.p > 0 && pub.q > 0 && (pub.p - 1) % pub.q == 0
    requires pub.g == DeriveGenerator(h, pub.p, pub.q)
    requires Pow(h, pub.p - 1) % pub.p == 1 % pub.p
    requires pub.y == PowMod(pub.g, priv.x, pub.p)
    requires Sign(sha1, msg, pub, priv, k).Some?
    requires Gcd(Sign(sha1, msg, pub, priv, k).value.s, pub.q) == 1
    ensures Verify(sha1, msg, Sign(sha1, msg, pub, priv, k).value, pub) == Verified
  {
    DeriveGeneratorOrder(h, pub.p, pub.q);
    SignVerify(sha1, msg, pub, priv, k);
  }
}

=== FILE: ModArith.dfy ===
/**
 * The big-integer services the signature code takes from its arithmetic
 * library, stated over mathematical integers: exponentiation, modular
 * exponentiation (mpz_powm), the greatest common divisor (mpz_gcd) and the
 * modular inverse (mpz_invert), which exists only for coprime arguments.
 */
module ModArith {
  import opened Wrappers

  /** b raised to the power e. */
  function Pow(b: nat, e: nat): nat
    decreases e
  {
    if e == 0 then 1 else b * Pow(b, e - 1)
  }

  /** mpz_powm on non-negative operands: b^e reduced modulo m. A zero modulus divides by zero. */
  function PowMod(b: nat, e: nat, m: nat): (r: nat)
    requires m > 0
    ensures r < m
  {
    Pow(b, e) % m
  }

  /**
   * mpz_gcd by Euclid's algorithm: zero only for Gcd(0, 0), as mpz_gcd
   * defines it, and never above a non-zero second argument.
   */
  function Gcd(a: nat, b: nat): (d: nat)
    decreases b
    ensures d == 0 <==> a == 0 && b == 0
    ensures b > 0 ==> d <= b
  {
    if b == 0 then a else Gcd(b, a % b)
  }

  /**
   * Extended Euclid: the gcd together with Bezout coefficients.
   */
  function ExtGcd(a: nat, b: nat): (r: (nat, int, int))
    decreases b
    ensures r.0 == Gcd(a, b)
    ensures a * r.1 + b * r.2 == r.0
  {
    if b == 0 then (a, 1, 0)
    else
      var t := ExtGcd(b, a % b);
      BezoutStep(a, b, t.0, t.1, t.2);
      (t.0, t.2, t.1 - (a / b) * t.2)
  }

  lemma BezoutStep(a: nat, b: nat, d: int, x: int, y: int)
    requires b > 0
    requires b * x + (a % b) * y == d
    ensures a * y + b * (x - (a / b) * y) == d
  {
    var k := a / b;
    assert a == b * k + a % b;
    calc {
      a * y + b * (x - k * y);
    ==  { MulSubDistrib(b, x, k * y); }
      a * y + b * x - b * (k * y);
    ==  { MulAssoc(b, k, y); }
      a * y + b * x - (b * k) * y;
    ==  { MulAddDistribRight(b * k, a % b, y); }
      (b * k + a % b) * y - (b * k) * y + b * x;
    ==
      (a % b) * y + b * x;
    }
  }

  /**
   * mpz_invert: the inverse of a modulo m, in [0, m), or None when there is
   * none (that is, when a and m are not coprime).
   */
  function Inverse(a: nat, m: nat): (r: Option<nat>)
    requires m > 0
    ensures r.Some? <==> Gcd(a, m) == 1
    ensures r.Some? ==> r.value < m && (a * r.value) % m == 1 % m
  {
    var t := ExtGcd(a, m);
    if t.0 == 1 then
      InverseFromBezout(a, m, t.1, t.2);
      Some(t.1 % m)
    else None
  }

  lemma InverseFromBezout(a: nat, m: nat, x: int, y: int)
    requires m > 0
    requires a * x + m * y == 1
    ensures (a * (x % m)) % m == 1 % m
  {
    calc {
      (a * (x % m)) % m;
    ==  { MulModRight(a, x, m); }
      (a * x) % m;
    ==  { ModAddMultiple(a * x, m, y); }
      (a * x + m * y) % m;
    }
  }

  // ---------------------------------------------------------------------------
  // Integer arithmetic facts used by the proofs below.

  lemma MulAssoc(a: int, b: int, c: int)
    ensures a * (b * c) == (a * b) * c
  {
  }

  lemma MulSubDistrib(a: int, b: int, c: int)
    ensures a * (b - c) == a * b - a * c
  {
  }

  lemma MulAddDistribRight(a: int, b: int, c: int)
    ensures (a + b) * c == a * c + b * c
  {
  }

  /** Euclidean division is unique: a quotient/remainder pair determines a % m. */
  lemma ModUnique(a: int, m: int, k: int, r: int)
    requires m > 0
    requires a == m * k + r
    requires 0 <= r < m
    ensures a % m == r
  {
    var k0 := a / m;
    assert a == m * k0 + a % m;
    assert m * (k - k0) == a % m - r by { MulSubDistrib(m, k, k0); }
    var d := k - k0;
    if d >= 1 {
      MulMonotone(m, 1, d);
    } else if d <= -1 {
      MulMonotone(m, d, -1);
    }
  }

  lemma MulMonotone(m: int, a: int, b: int)
    requires m >= 0 && a <= b
    ensures m * a <= m * b
  {
  }

  lemma ModAddMultiple(a: int, m: int, k: int)
    requires m > 0
    ensures (a + m * k) % m == a % m
  {
    var k0 := a / m;
    assert a == m * k0 + a % m;
    assert a + m * k == m * (k0 + k) + a % m;
    ModUnique(a + m * k, m, k0 + k, a % m);
  }

  lemma MulModRight(a: int, b: int, m: int)
    requires m > 0
    ensures (a * b) % m == (a * (b % m)) % m
  {
    var k := b / m;
    assert b == m * k + b % m;
    assert a * b == a * (b % m) + m * (a * k) by {
      calc {
        a * b;
      ==
        a * (m * k + b % m);
      ==
        a * (m * k) + a * (b % m);
      ==  { MulAssoc(a, m, k); MulAssoc(m, a, k); }
        a * (b % m) + m * (a * k);
      }
    }
    ModAddMultiple(a * (b % m), m, a * k);
  }

  lemma MulModLeft(a: int, b: int, m: int)
    requires m > 0
    ensures (a * b) % m == ((a % m) * b) % m
  {
    MulModRight(b, a, m);
  }

  lemma MulModBoth(a: int, b: int, m: int)
    requires m > 0
    ensures (a * b) % m == ((a % m) * (b % m)) % m
  {
    MulModLeft(a, b, m);
    MulModRight(a % m, b, m);
  }

  lemma AddModBoth(a: int, b: int, m: int)
    requires m > 0
    ensures (a + b) % m == (a % m + b % m) % m
  {
    var ka, kb := a / m, b / m;
    assert a == m * ka + a % m;
    assert b == m * kb + b % m;
    assert a + b == (a % m + b % m) + m * (ka + kb);
    ModAddMultiple(a % m + b % m, m, ka + kb);
  }

  lemma ModSmall(a: int, m: int)
    requires 0 <= a < m
    ensures a % m == a
  {
    ModUnique(a, m, 0, a);
  }

  lemma ModMod(a: int, m: int)
    requires m > 0
    ensures (a % m) % m == a % m
  {
    ModUnique(a % m, m, 0, a % m);
  }

  /**
   * Multiplying by b and then by an inverse w of b modulo m gives back a,
   * modulo m.
   */
  lemma {:induction false} CancelInverse(a: int, b: int, w: int, m: int)
    requires m > 0
    requires (b * w) % m == 1 % m
    ensures (((a * b) % m) * w) % m == a % m
  {
    calc {
      (((a * b) % m) * w) % m;
    ==  { MulModLeft(a * b, w, m); }
      ((a * b) * w) % m;
    ==  { MulAssoc(a, b, w); }
      (a * (b * w)) % m;
    ==  { MulModRight(a, b * w, m); }
      (a * ((b * w) % m)) % m;
    ==
      (a * (1 % m)) % m;
    ==  { MulModRight(a, 1, m); }
      (a * 1) % m;
    }
  }

  /** Inverses modulo m are unique within [0, m). */
  lemma {:induction false} InverseUnique(a: int, w1: int, w2: int, m: int)
    requires m > 0
    requires 0 <= w1 < m && 0 <= w2 < m
    requires (a * w1) % m == 1 % m && (a * w2) % m == 1 % m
    ensures w1 == w2
  {
    CancelInverse(w1, a, w2, m);
    assert ((w1 * a) % m * w2) % m == w1 % m;
    assert w1 * a == a * w1;
    calc {
      ((a * w1) % m * w2) % m;
    ==
      ((1 % m) * w2) % m;
    ==  { MulModLeft(1, w2, m); }
      w2 % m;
    }
    ModUnique(w1, m, 0, w1);
    ModUnique(w2, m, 0, w2);
  }

  // ---------------------------------------------------------------------------
  // Exponentiation laws.

  lemma {:induction false} PowAdd(b: nat, e1: nat, e2: nat)
    ensures Pow(b, e1 + e2) == Pow(b, e1) * Pow(b, e2)
    decreases e1
  {
    if e1 > 0 {
      PowAdd(b, e1 - 1, e2);
      MulAssoc(b, Pow(b, e1 - 1), Pow(b, e2));
    }
  }

  lemma {:induction false} PowMul(b: nat, e1: nat, e2: nat)
    ensures Pow(b, e1 * e2) == Pow(Pow(b, e1), e2)
    decreases e2
  {
    if e2 > 0 {
      assert e1 * e2 == e1 + e1 * (e2 - 1);
      PowAdd(b, e1, e1 * (e2 - 1));
      PowMul(b, e1, e2 - 1);
    }
  }

  /** Reducing the base first does not change b^e modulo m (what mpz_powm relies on). */
  lemma {:induction false} PowModBase(b: nat, e: nat, m: nat)
    requires m > 0
    ensures Pow(b % m, e) % m == Pow(b, e) % m
    decreases e
  {
    if e > 0 {
      calc {
        Pow(b % m, e) % m;
      ==
        ((b % m) * Pow(b % m, e - 1)) % m;
      ==  { MulModRight(b % m, Pow(b % m, e - 1), m); }
        ((b % m) * (Pow(b % m, e - 1) % m)) % m;
      ==  { PowModBase(b, e - 1, m); }
        ((b % m) * (Pow(b, e - 1) % m)) % m;
      ==  { MulModBoth(b, Pow(b, e - 1), m); }
        (b * Pow(b, e - 1)) % m;
      }
    }
  }

  lemma {:induction false} PowOne(e: nat)
    ensures Pow(1, e) == 1
    decreases e
  {
    if e > 0 {
      PowOne(e - 1);
    }
  }

  /**
   * When g^q is 1 modulo p, exponents of g only matter modulo q: the fact
   * that makes the verification equation of DSA work.
   */
  lemma {:induction false} ExponentModOrder(g: nat, e: nat, q: nat, p: nat)
    requires q > 0 && p > 0
    requires Pow(g, q) % p == 1 % p
    ensures Pow(g, e) % p == Pow(g, e % q) % p
  {
    var n, r := e / q, e % q;
    assert e == q * n + r;
    PowAdd(g, q * n, r);
    PowOfOrderMultiple(g, q, n, p);
    MulModLeft(Pow(g, q * n), Pow(g, r), p);
    MulModLeft(1, Pow(g, r), p);
  }

  lemma {:induction false} PowOfOrderMultiple(g: nat, q: nat, n: nat, p: nat)
    requires p > 0
    requires Pow(g, q) % p == 1 % p
    ensures Pow(g, q * n) % p == 1 % p
  {
    var gq := Pow(g, q);
    calc {
      Pow(g, q * n) % p;
    ==  { PowMul(g, q, n); }
      Pow(gq, n) % p;
    ==  { PowModBase(gq, n, p); }
      Pow(gq % p, n) % p;
    ==
      Pow(1 % p, n) % p;
    ==  { PowModBase(1, n, p); }
      Pow(1, n) % p;
    ==  { PowOne(n); }
      1 % p;
    }
  }

  /** Gcd(a, b) is positive and divides both arguments when they are not both zero. */
  lemma {:induction false} GcdDivides(a: nat, b: nat)
    requires a > 0 || b > 0
    ensures Gcd(a, b) > 0 && a % Gcd(a, b) == 0 && b % Gcd(a, b) == 0
    decreases b
  {
    if b > 0 {
      GcdDivides(b, a % b);
      DividesCombination(a, b, a / b, a % b, Gcd(b, a % b));
    }
  }

  /** A common divisor of b and r divides b * k + r. */
  lemma DividesCombination(a: int, b: int, k: int, r: int, d: int)
    requires d > 0 && b % d == 0 && r % d == 0
    requires a == b * k + r
    ensures a % d == 0
  {
    var kb, kr := b / d, r / d;
    assert b == d * kb && r == d * kr;
    assert a == d * (kb * k + kr) by {
      MulAssoc(d, kb, k);
    }
    ModUnique(a, d, kb * k + kr, 0);
  }

  /**
   * The inverse fails exactly when no inverse exists: any w with a * w == 1
   * modulo m (m > 1) makes Inverse succeed.
   */
  lemma {:induction false} InverseComplete(a: nat, m: nat, w: nat)
    requires m > 1
    requires (a * w) % m == 1
    ensures Inverse(a, m).Some?
  {
    GcdDivides(a, m);
    var d := Gcd(a, m);
    var t := (a * w) / m;
    assert a * w == m * t + 1;
    var ka, km := a / d, m / d;
    assert a == d * ka && m == d * km;
    assert d * (ka * w - km * t) == 1 by {
      MulAssoc(d, ka, w);
      MulAssoc(d, km, t);
      MulSubDistrib(d, ka * w, km * t);
    }
    UnitFactor(d, ka * w - km * t);
  }

  /** A positive factor of 1 is 1. */
  lemma UnitFactor(d: int, c: int)
    requires d > 0 && d * c == 1
    ensures d == 1
  {
    if c <= 0 {
      MulMonotone(d, c, 0);
    } else {
      MulMonotone(d, 1, c);
    }
  }
}

=== FILE: Wrappers.dfy ===
/** Option: the result of an operation that may have no value. */
module Wrappers {
  datatype Option<+T> = None | Some(value: T)
}
